=== FILE: README.md ===
# clickjacking-poc, modelled in Dafny

`clickjacking-poc` is a small Go command-line tool that prints an HTML page
framing a target URL in an `<iframe>`, so that a tester can see whether the
site can be embedded by a third party. Its logic is two pure pieces of
string handling, and this project models both and proves properties of them:

- **the file-name deriver** `urlToFileName` (cmd/utils.go). It turns a URL
  into a file name: the first `://` becomes one `_`, every character that is
  not an ASCII letter or digit becomes `_`, and `.html` is appended
  (module `FileName`);
- **the proof-of-concept page** printed by the root command (cmd/root.go).
  It is the fixed `template`, filled by `fmt.Sprintf` with the title, body
  style, header style, header message, URL and iframe style, in that order,
  together with the defaults the command-line flags start from
  (module `Page`).

Two more modules model the parts of Go's standard library these pieces use:

- `GoStrings` models `strings.Index` and `strings.Replace(s, old, new, 1)`;
- `GoFmt` models `fmt.Sprintf` with string arguments and the `%s` verb and
  `%%` escape.

A URL is a sequence of characters. This matches what
`strings.Split(url, "")` produces for valid UTF-8: one string per code
point.

Files:

- `gostrings.dfy`
- `gofmt.dfy`
- `filename.dfy`
- `page.dfy`

The code does not escape the URL. `Page.SrcIsUrl` and `Page.QuoteNotEscaped`
show what a `"` in it does.

`Run` (cmd/root.go:39-42) only formats and prints the page. It reads the
flag-bound variables, so values given only in a config file never reach the
page. It calls neither `urlToFileName` nor `writeFile` nor `openBrowser`;
`urlToFileName` is modelled as a function in its own right.

## Model

| member | source | states |
|---|---|---|
| `GoStrings.Index` | cmd/utils.go:14 | the result is the leftmost occurrence of the separator, and it is -1 exactly when there is no occurrence |
| `GoStrings.ReplaceOnce` | cmd/utils.go:14 | `strings.Replace(url, "://", "_", 1)`: the result loses the target's length and gains the replacement's when the target occurs, and keeps its length otherwise |
| `GoStrings.ReplaceOnceFirst` | cmd/utils.go:14 | replacing once rewrites the leftmost occurrence and keeps the text on both sides of it |
| `GoStrings.ReplaceOnceMissing` | cmd/utils.go:14 | without an occurrence the string is returned unchanged |
| `GoFmt.Sprintf` | cmd/root.go:40 | the output is the format's length minus two per `%s` and one per `%%`, plus the summed argument lengths (the length law; `GoFmt.SprintfVerb`, `GoFmt.SprintfLiteral` and `GoFmt.SprintfEscape` give the content) |
| `GoFmt.SprintfLiteral` | cmd/root.go:40 | format text without `%` is copied to the output unchanged |
| `GoFmt.PlainSprintf` | cmd/root.go:20-27 | a format without `%` takes no argument and is its own output |
| `GoFmt.SprintfVerb` | cmd/root.go:40 | a `%s` verb writes its argument verbatim and passes the remaining arguments on |
| `GoFmt.SprintfEscape` | cmd/root.go:40 | Go's rule that a `%%` in a format writes a single `%`; no format string in the program contains `%%`, so the program never triggers it |
| `GoFmt.SprintfSlot` | cmd/root.go:40 | text, `%s`, rest: the output is the text, the argument, then the rest's output |
| `GoFmt.SprintfStep` | cmd/utils.go:28 | text followed by `%s`: the text, then the first argument unaltered |
| `FileName.IsAsciiAlnum` | cmd/utils.go:18-24 | the regular expression `([a-zA-Z0-9])` matches only ASCII characters, never `_` or `:` |
| `FileName.SanitizeChar` | cmd/utils.go:18-24 | one step of the loop always yields a stem character, and leaves a character unchanged exactly when it is already one |
| `FileName.ReplaceNonAlnum` | cmd/utils.go:17-25 | the loop keeps the length, keeps each ASCII letter or digit at its position and puts `_` in place of every other character |
| `FileName.Stem` | cmd/utils.go:14-25 | the stem uses only `[A-Za-z0-9_]` and is as long as the URL or two shorter |
| `FileName.FileNameFormatShape` | cmd/utils.go:28 | `"%s.html"` takes one argument and yields it followed by `.html` |
| `FileName.UrlToFileName` | cmd/utils.go:12-29 | the name is the sanitised stem followed by `.html` |
| `FileName.ReplaceNonAlnumConcat` | cmd/utils.go:19-25 | the per-character loop treats each character on its own, so it distributes over concatenation |
| `FileName.StemWithoutSeparator` | cmd/utils.go:14-25 | with no `://` in the URL, only the character loop applies |
| `FileName.StemSplit` | cmd/utils.go:14-25 | the first `://` becomes exactly one `_`, and the text on both sides is sanitised on its own |
| `FileName.StemPositions` | cmd/utils.go:14-25 | before the first `://` each character maps in place; the separator becomes one `_`; after it each character maps two places to the left |
| `FileName.StemShape` | cmd/utils.go:14-25 | every stem character is in `[A-Za-z0-9_]`; the stem length is the URL's length minus 2 if it contains `://` and equal otherwise |
| `FileName.StemKeepsAlnum` | cmd/utils.go:19-25 | for a URL without `://`, ASCII letters and digits stay at their positions and every other character, non-ASCII included, becomes `_` (`FileName.StemPositions` gives the shifted form for a URL with `://`) |
| `FileName.LaterSeparatorsBecomeUnderscores` | cmd/utils.go:14 | only the first `://` is collapsed; a later one becomes `___` |
| `FileName.EmptyUrl` | cmd/utils.go:17-28 | the empty URL gives exactly `.html` |
| `FileName.SafeFileName` | cmd/utils.go:12-29 | the name matches `[A-Za-z0-9_]+\.html` exactly when the URL is not empty |
| `FileName.NoColonNoSeparator` | cmd/utils.go:14 | a text without `:` holds no `://`, so nothing in it is replaced |
| `FileName.StemIdempotent` | cmd/utils.go:12-29 | deriving a name from a stem gives that stem back: the deriver is idempotent on its own output |
| `FileName.StemOfSchemeUrl` | cmd/utils.go:14-25 | a scheme without `:` followed by `://`: the stem is the sanitised scheme, `_`, then the sanitised rest |
| `FileName.ExampleUrl` | cmd/utils.go:12-29 | `https://example.com/path?q=1` gives `https_example_com_path_q_1.html` |
| `FileName.WikipediaUrl` | cmd/utils.go:12-29 | `http://wikipedia.com` gives `http_wikipedia_com.html` |
| `FileName.DistinctUrlsCollide` | cmd/utils.go:19-25 | different URLs can give the same name (`a.b` and `a-b`); nothing resolves collisions |
| `Page.FragmentsArePlain` | cmd/root.go:20-27 | the template's fixed text holds no `%`, so `fmt.Sprintf` copies it as it is |
| `Page.FillSixSlots` | cmd/root.go:20-40 | seven plain texts around six `%s` verbs: each argument is copied whole between its neighbouring texts |
| `Page.Render` | cmd/root.go:20-40 | the page is the fixed skeleton with title, body style, header style, header message, URL and iframe style inserted verbatim, in that order |
| `Page.RenderLength` | cmd/root.go:20-40 | the page length is the skeleton length plus the six value lengths, which is the template length minus the six verbs plus the arguments |
| `Page.RenderFrame` | cmd/root.go:20-27 | every page starts with `<html>\n<head><title>` and ends with the closing fragment, whose last character is `l`: the `</html` tag is never closed |
| `Page.UrlSplit` | cmd/root.go:25-40 | the page is the text before `<iframe src="`, that opening, the URL, then `" style="`, the iframe style and the closing fragment |
| `Page.UrlVerbatim` | cmd/root.go:25-40 | the URL appears verbatim, unescaped, between the fixed `<iframe src="` and the fixed `" style="` |
| `Page.UrlDeterminesPage` | cmd/root.go:40 | with the other five values fixed, two pages are equal exactly when their URLs are |
| `Page.SrcValue` | cmd/root.go:25 | the raw text from the fixed `<iframe src="` up to the next `"` holds no `"` and is a prefix of the URL followed by the rest of the page |
| `Page.SrcIsUrl` | cmd/root.go:25 | the raw `src` text, up to the next `"`, is exactly the URL if and only if the URL has no `"` |
| `Page.QuoteEndsSrc` | cmd/root.go:25 | a URL `u"v` with `u` free of quotes leaves only `u` as the raw `src` text; the rest is read as markup |
| `Page.QuoteNotEscaped` | cmd/root.go:25 | the URL `http://a.com/"onload="alert(1)` leaves `http://a.com/` as the raw `src` text |
| `Page.DefaultPage` | cmd/root.go:61-84 | the page built from the defaults holds `Framed Web Application`, `background-color:black`, `color:white;`, the fixed header message and `width:90%%;height:90%%`, each in its slot |
| `Page.DoubledPercentInFormat` | cmd/root.go:81 | the default iframe style read as a format would collapse each `%%` to `%`; as an argument it does not (see `Page.DefaultPage`) |

`Page.AttributeValue` is the raw text of a double-quoted attribute value:
everything up to the next `"`. It is not part of the tool. It exists to
state `Page.SrcIsUrl` and `Page.QuoteEndsSrc`.

## Left out

- The cobra/viper command set-up (cmd/root.go:29-38, 43-50, 52-89 and 92-115) is not modelled. This covers flag parsing, the required `--url` flag, config-file discovery, `AutomaticEnv` and the home-directory lookup. All of it is library behaviour. The model takes the six values as given.
- Printing the page (cmd/root.go:41) is I/O. `fmt.Println` adds a newline after the page, and the model does not include it.
- `writeFile`, `openBrowser`, `errMsg` and `infoMsg` (cmd/utils.go:31-59) are file-system writes, process spawning, console output and `os.Exit`. None of them is modelled.
- The second deriver `urlToFilename` in cmd/file_utils.go is not modelled. It compiles a pattern with a `(?!...)` look-ahead, which Go's regular-expression engine rejects, so `MustCompile` panics. It also only prints and returns a constant.
- URLs holding invalid UTF-8 are left out. `strings.Split` would cut such a URL byte by byte, but the model's characters are Unicode scalar values.
- GoFmt.Sprintf: models only the `%s` verb and the `%%` escape, with exactly as many arguments as verbs. Every format string in the program uses only `%s`, with one string argument per verb; the two modelled ones are the page template and `"%s.html"`. Go's reporting of missing or extra arguments and its other verbs are not modelled.
- Page.SrcIsUrl: speaks of the raw text between the fixed `<iframe src="` and the next `"`, not of what a browser finally reads. A browser also decodes character references, so `a&amp;b` is read as `a&b`. The five values in front of the iframe are not escaped either, and can move or hide the attribute: a header message `<!--` comments the iframe out, and a header style `x" title='` opens an attribute that swallows the iframe tag.
- Rendering is a pure function of its six inputs. `Page.Render` is a Dafny function, so this holds by construction and no separate lemma is given.

=== FILE: filename.dfy ===
/**
 * The file-name deriver `urlToFileName` of cmd/utils.go: a URL becomes the
 * name of the file the proof-of-concept page is saved under.
 *
 * A URL is a sequence of characters (Unicode scalar values), which is what
 * Go's `strings.Split(url, "")` yields for valid UTF-8. The deriver
 *   1. replaces the first `"://"` by a single `_`,
 *   2. keeps every ASCII letter or digit and turns every other character,
 *      non-ASCII ones included, into `_`,
 *   3. appends `.html` through `fmt.Sprintf("%s.html", ...)`.
 */
module FileName {
  import GoStrings
  import GoFmt

  /** The scheme separator that is collapsed to one underscore. */
  const SchemeSeparator: string := "://"

  /** The format the stem is written into. */
  const FileNameFormat: string := "%s.html"

  /** The extension every derived name ends with. */
  const Extension: string := ".html"

  /** What the regular expression `([a-zA-Z0-9])` accepts in a one-character string. */
  function IsAsciiAlnum(c: char): (b: bool)
    ensures b ==> c as int < 128 && c != '_' && c != ':'
  {
    ('a' <= c <= 'z') || ('A' <= c <= 'Z') || ('0' <= c <= '9')
  }

  /** The alphabet of a derived stem: `[A-Za-z0-9_]`. */
  predicate IsStemChar(c: char) {
    IsAsciiAlnum(c) || c == '_'
  }

  /** The name a file gets: `^[A-Za-z0-9_]+\.html$`. */
  predicate IsSafeFileName(name: string) {
    |name| > |Extension| &&
    name[|name| - |Extension|..] == Extension &&
    forall i :: 0 <= i < |name| - |Extension| ==> IsStemChar(name[i])
  }

  /** One step of the character loop: letters and digits stay, anything else becomes `_`. */
  function SanitizeChar(c: char): (r: char)
    ensures IsStemChar(r)
    ensures r == c <==> IsStemChar(c)
  {
    if IsAsciiAlnum(c) then c else '_'
  }

  /** The character loop of `urlToFileName`, applied to every character in place. */
  function ReplaceNonAlnum(s: string): (r: string)
    ensures |r| == |s|
    ensures forall i :: 0 <= i < |s| && IsAsciiAlnum(s[i]) ==> r[i] == s[i]
    ensures forall i :: 0 <= i < |s| && !IsAsciiAlnum(s[i]) ==> r[i] == '_'
  {
    seq(|s|, i requires 0 <= i < |s| => SanitizeChar(s[i]))
  }

  /** The part of the file name in front of `.html`. */
  function Stem(url: string): (r: string)
    ensures forall k :: 0 <= k < |r| ==> IsStemChar(r[k])
    ensures |r| == |url| || |r| == |url| - 2
  {
    ReplaceNonAlnum(GoStrings.ReplaceOnce(url, SchemeSeparator, "_"))
  }

  /** The format `"%s.html"` takes one argument and copies `.html` after it. */
  lemma FileNameFormatShape(stem: string)
    ensures GoFmt.WellFormed(FileNameFormat) && GoFmt.Verbs(FileNameFormat) == 1
    ensures GoFmt.Sprintf(FileNameFormat, [stem]) == stem + Extension
  {
    GoFmt.SprintfStep("", stem, Extension, []);
    assert "" + "%s" + Extension == FileNameFormat;
    assert [stem] + [] == [stem];
    assert GoFmt.Sprintf(Extension, []) == Extension by {
      GoFmt.SprintfLiteral(Extension, "", []);
      assert Extension + "" == Extension;
    }
  }

  /** `urlToFileName(url)`: the stem written into `"%s.html"`. */
  function UrlToFileName(url: string): (r: string)
    ensures r == Stem(url) + Extension
  {
    FileNameFormatShape(Stem(url));
    GoFmt.Sprintf(FileNameFormat, [Stem(url)])
  }

  /** The character loop commutes with concatenation. */
  lemma ReplaceNonAlnumConcat(a: string, b: string)
    ensures ReplaceNonAlnum(a + b) == ReplaceNonAlnum(a) + ReplaceNonAlnum(b)
  {
    var l, r := ReplaceNonAlnum(a + b), ReplaceNonAlnum(a) + ReplaceNonAlnum(b);
    forall i | 0 <= i < |l| ensures l[i] == r[i] {
      if i < |a| {
        assert (a + b)[i] == a[i];
      } else {
        assert (a + b)[i] == b[i - |a|];
      }
    }
  }

  /** A URL without `"://"` is only run through the character loop. */
  lemma StemWithoutSeparator(url: string)
    requires !GoStrings.Contains(url, SchemeSeparator)
    ensures Stem(url) == ReplaceNonAlnum(url)
  {
    GoStrings.ReplaceOnceMissing(url, SchemeSeparator, "_");
  }

  /** `"://"` cannot start in the last two characters in front of a `:`. */
  lemma NoSeparatorAcrossColon(a: string, b: string)
    requires !GoStrings.Contains(a, SchemeSeparator)
    ensures forall j :: 0 <= j < |a| ==> !GoStrings.OccursAt(a + SchemeSeparator + b, SchemeSeparator, j)
  {
    var url := a + SchemeSeparator + b;
    assert url[|a|] == ':';
    forall j | 0 <= j < |a| ensures !GoStrings.OccursAt(url, SchemeSeparator, j) {
      if j + 3 <= |a| {
        assert url[j..j + 3] == a[j..j + 3];
        assert !GoStrings.OccursAt(a, SchemeSeparator, j);
      } else if j == |a| - 1 {
        assert url[j..j + 3][1] == url[j + 1];
      } else {
        assert url[j..j + 3][2] == url[j + 2];
      }
    }
  }

  /**
   * A URL whose first `"://"` sits right after `a` is the loop applied to
   * `a`, one `_`, and the loop applied to everything after the separator.
   * With `StemWithoutSeparator` this defines the stem without reference to
   * `strings.Replace`.
   */
  lemma StemSplit(a: string, b: string)
    requires !GoStrings.Contains(a, SchemeSeparator)
    ensures Stem(a + SchemeSeparator + b) == ReplaceNonAlnum(a) + "_" + ReplaceNonAlnum(b)
  {
    var url := a + SchemeSeparator + b;
    assert url[|a|..|a| + 3] == SchemeSeparator;
    NoSeparatorAcrossColon(a, b);
    assert GoStrings.FirstAt(url, SchemeSeparator, |a|);
    GoStrings.ReplaceOnceFirst(url, SchemeSeparator, "_", |a|);
    assert url[..|a|] == a;
    assert url[|a| + 3..] == b;
    ReplaceNonAlnumConcat(a + "_", b);
    ReplaceNonAlnumConcat(a, "_");
  }

  /** Nothing in front of the leftmost `"://"` holds another one. */
  lemma PrefixHasNoSeparator(url: string, i: int)
    requires GoStrings.FirstAt(url, SchemeSeparator, i)
    ensures !GoStrings.Contains(url[..i], SchemeSeparator)
  {
    var a := url[..i];
    forall j ensures !GoStrings.OccursAt(a, SchemeSeparator, j) {
      if 0 <= j && j + 3 <= |a| {
        assert a[j..j + 3] == url[j..j + 3];
        assert !GoStrings.OccursAt(url, SchemeSeparator, j);
      }
    }
  }

  /**
   * Position by position: with the first `"://"` at index `i`, characters in
   * front of it map to themselves or `_`, the separator becomes one `_`, and
   * every later character moves two places to the left.
   */
  lemma StemPositions(url: string, i: int)
    requires GoStrings.FirstAt(url, SchemeSeparator, i)
    ensures |Stem(url)| == |url| - 2
    ensures forall k :: 0 <= k < i ==> Stem(url)[k] == SanitizeChar(url[k])
    ensures Stem(url)[i] == '_'
    ensures forall k :: i < k < |url| - 2 ==> Stem(url)[k] == SanitizeChar(url[k + 2])
  {
    var a, b := url[..i], url[i + 3..];
    assert url == a + SchemeSeparator + b;
    PrefixHasNoSeparator(url, i);
    StemSplit(a, b);
  }

  /**
   * The stem has the alphabet `[A-Za-z0-9_]` and is as long as the URL, or
   * two characters shorter when the URL holds `"://"`.
   */
  lemma StemShape(url: string)
    ensures forall k :: 0 <= k < |Stem(url)| ==> IsStemChar(Stem(url)[k])
    ensures |Stem(url)| == if GoStrings.Contains(url, SchemeSeparator) then |url| - 2 else |url|
  {
    var i := GoStrings.Index(url, SchemeSeparator);
    if i == -1 {
      StemWithoutSeparator(url);
    } else {
      StemPositions(url, i);
    }
  }

  /**
   * Letters and digits are kept at their place and every other character
   * becomes `_`, for a URL without `"://"`.
   */
  lemma StemKeepsAlnum(url: string)
    requires !GoStrings.Contains(url, SchemeSeparator)
    ensures |Stem(url)| == |url|
    ensures forall k :: 0 <= k < |url| && IsAsciiAlnum(url[k]) ==> Stem(url)[k] == url[k]
    ensures forall k :: 0 <= k < |url| && !IsAsciiAlnum(url[k]) ==> Stem(url)[k] == '_'
  {
    StemWithoutSeparator(url);
  }

  /**
   * Only the first `"://"` is collapsed: a later one, at index `j` of the
   * text after the first, becomes three underscores.
   */
  lemma LaterSeparatorsBecomeUnderscores(a: string, b: string, j: int)
    requires !GoStrings.Contains(a, SchemeSeparator)
    requires GoStrings.OccursAt(b, SchemeSeparator, j)
    ensures |Stem(a + SchemeSeparator + b)| >= |a| + 1 + j + 3
    ensures forall k :: |a| + 1 + j <= k < |a| + 4 + j ==> Stem(a + SchemeSeparator + b)[k] == '_'
  {
    StemSplit(a, b);
    var stem := ReplaceNonAlnum(a) + "_" + ReplaceNonAlnum(b);
    forall k | |a| + 1 + j <= k < |a| + 4 + j ensures stem[k] == '_' {
      var t := k - |a| - 1;
      assert b[j..j + 3][t - j] == b[t];
      assert SchemeSeparator[t - j] == ':' || SchemeSeparator[t - j] == '/';
      assert stem[k] == SanitizeChar(b[t]);
    }
  }

  /** The empty URL gives the bare extension. */
  lemma EmptyUrl()
    ensures UrlToFileName("") == ".html"
  {
    assert !GoStrings.OccursAt("", SchemeSeparator, 0);
    StemWithoutSeparator("");
  }

  /** A derived name matches `^[A-Za-z0-9_]+\.html$` exactly when the URL is not empty. */
  lemma SafeFileName(url: string)
    ensures IsSafeFileName(UrlToFileName(url)) <==> url != []
  {
    StemShape(url);
    var name := UrlToFileName(url);
    assert name[..|name| - |Extension|] == Stem(url);
    assert name[|name| - |Extension|..] == Extension;
    if GoStrings.Contains(url, SchemeSeparator) {
      var i :| GoStrings.OccursAt(url, SchemeSeparator, i);
    }
  }

  /** A string without `:` holds no `"://"`. */
  lemma NoColonNoSeparator(s: string)
    requires ':' !in s
    ensures !GoStrings.Contains(s, SchemeSeparator)
  {
    forall j ensures !GoStrings.OccursAt(s, SchemeSeparator, j) {
      if 0 <= j && j + 3 <= |s| {
        assert s[j] in s;
        assert s[j..j + 3][0] == s[j];
      }
    }
  }

  /** Deriving a name from a stem keeps the stem: the deriver is idempotent on its own stems. */
  lemma StemIdempotent(url: string)
    ensures Stem(Stem(url)) == Stem(url)
    ensures UrlToFileName(Stem(url)) == UrlToFileName(url)
  {
    var stem := Stem(url);
    StemShape(url);
    assert ':' !in stem by {
      forall k | 0 <= k < |stem| ensures stem[k] != ':' {
        assert IsStemChar(stem[k]);
      }
    }
    NoColonNoSeparator(stem);
    StemWithoutSeparator(stem);
    assert ReplaceNonAlnum(stem) == stem by {
      forall k | 0 <= k < |stem| ensures ReplaceNonAlnum(stem)[k] == stem[k] {
        assert IsStemChar(stem[k]);
      }
    }
  }

  /**
   * The stem of a URL `a + "://" + b` whose scheme part `a` has no `:`, given
   * what the character loop makes of `a` and `b`.
   */
  lemma StemOfSchemeUrl(a: string, b: string, ra: string, rb: string)
    requires ':' !in a
    requires ReplaceNonAlnum(a) == ra && ReplaceNonAlnum(b) == rb
    ensures Stem(a + SchemeSeparator + b) == ra + "_" + rb
  {
    NoColonNoSeparator(a);
    StemSplit(a, b);
  }

  /** The character loop on the pieces of `https://example.com/path?q=1`. */
  lemma ExampleLoop()
    ensures ReplaceNonAlnum("https") == "https"
    ensures ReplaceNonAlnum("example.com/path?q=1") == "example_com_path_q_1"
  {
  }

  /** How `https://example.com/path?q=1` and its file name are put together. */
  lemma ExampleText()
    ensures "https" + SchemeSeparator + "example.com/path?q=1" == "https://example.com/path?q=1"
    ensures "https" + "_" + "example_com_path_q_1" + Extension == "https_example_com_path_q_1.html"
  {
  }

  /** `https://example.com/path?q=1` is saved as `https_example_com_path_q_1.html`. */
  lemma ExampleUrl()
    ensures UrlToFileName("https://example.com/path?q=1") == "https_example_com_path_q_1.html"
  {
    ExampleLoop();
    ExampleText();
    StemOfSchemeUrl("https", "example.com/path?q=1", "https", "example_com_path_q_1");
  }

  /** The character loop on the pieces of `http://wikipedia.com`. */
  lemma WikipediaLoop()
    ensures ReplaceNonAlnum("http") == "http"
    ensures ReplaceNonAlnum("wikipedia.com") == "wikipedia_com"
  {
  }

  /** How `http://wikipedia.com` and its file name are put together. */
  lemma WikipediaText()
    ensures "http" + SchemeSeparator + "wikipedia.com" == "http://wikipedia.com"
    ensures "http" + "_" + "wikipedia_com" + Extension == "http_wikipedia_com.html"
  {
  }

  /** `http://wikipedia.com` is saved as `http_wikipedia_com.html`. */
  lemma WikipediaUrl()
    ensures UrlToFileName("http://wikipedia.com") == "http_wikipedia_com.html"
  {
    WikipediaLoop();
    WikipediaText();
    StemOfSchemeUrl("http", "wikipedia.com", "http", "wikipedia_com");
  }

  /**
   * There is no collision resolution: URLs that differ only in which
   * non-alphanumeric character they use get the same name.
   */
  lemma DistinctUrlsCollide()
    ensures "a.b" != "a-b"
    ensures UrlToFileName("a.b") == UrlToFileName("a-b")
  {
    assert "a.b"[1] != "a-b"[1];
    NoColonNoSeparator("a.b");
    NoColonNoSeparator("a-b");
    StemWithoutSeparator("a.b");
    StemWithoutSeparator("a-b");
    assert ReplaceNonAlnum("a.b") == "a_b";
    assert ReplaceNonAlnum("a-b") == "a_b";
  }
}

=== FILE: gofmt.dfy ===
/**
 * The part of Go's `fmt.Sprintf` that the program relies on.
 *
 * Every format string in the program uses only the `%s` verb; in particular
 * the two format strings of the modelled code (the page template and the
 * file-name pattern `"%s.html"`) do, and each call passes exactly as many
 * string arguments as there are verbs. The model therefore covers the
 * `%s` verb, which copies the next argument verbatim, and the `%%` escape,
 * which writes a single `%`; every other character is copied as it stands.
 */
module GoFmt {

  /** Every `%` in `format` starts a `%s` verb or a `%%` escape. */
  predicate WellFormed(format: string)
    decreases |format|
  {
    if format == [] then true
    else if format[0] == '%' then
      |format| >= 2 && (format[1] == 's' || format[1] == '%') && WellFormed(format[2..])
    else WellFormed(format[1..])
  }

  /** The number of `%s` verbs in a well-formed format. */
  function Verbs(format: string): nat
    requires WellFormed(format)
    decreases |format|
  {
    if format == [] then 0
    else if format[0] == '%' then
      (if format[1] == 's' then 1 else 0) + Verbs(format[2..])
    else Verbs(format[1..])
  }

  /** The number of `%%` escapes in a well-formed format. */
  function Escapes(format: string): nat
    requires WellFormed(format)
    decreases |format|
  {
    if format == [] then 0
    else if format[0] == '%' then
      (if format[1] == '%' then 1 else 0) + Escapes(format[2..])
    else Escapes(format[1..])
  }

  /** The summed length of a list of strings. */
  function TotalLength(args: seq<string>): nat {
    if args == [] then 0 else |args[0]| + TotalLength(args[1..])
  }

  /**
   * `fmt.Sprintf(format, args...)` for string arguments. The contract is the
   * length law; `SprintfVerb`, `SprintfLiteral` and `SprintfEscape` give the
   * content.
   */
  function Sprintf(format: string, args: seq<string>): (r: string)
    requires WellFormed(format) && Verbs(format) == |args|
    ensures |r| == |format| - 2 * Verbs(format) - Escapes(format) + TotalLength(args)
    decreases |format|
  {
    if format == [] then []
    else if format[0] == '%' then
      if format[1] == 's' then args[0] + Sprintf(format[2..], args[1..])
      else "%" + Sprintf(format[2..], args)
    else [format[0]] + Sprintf(format[1..], args)
  }

  /** A literal text without `%` in front of a format adds no verb and no escape. */
  lemma {:induction false} LiteralPrefix(lit: string, rest: string)
    requires '%' !in lit
    requires WellFormed(rest)
    ensures WellFormed(lit + rest) && Verbs(lit + rest) == Verbs(rest)
    ensures Escapes(lit + rest) == Escapes(rest)
    decreases |lit|
  {
    if lit == [] {
      assert lit + rest == rest;
    } else {
      var whole := lit + rest;
      assert whole[0] == lit[0] && lit[0] != '%';
      assert whole[1..] == lit[1..] + rest;
      LiteralPrefix(lit[1..], rest);
    }
  }

  /** A character other than `%` in front of a format is copied unchanged. */
  lemma SprintfCons(c: char, tail: string, args: seq<string>)
    requires c != '%'
    requires WellFormed(tail) && Verbs(tail) == |args|
    ensures WellFormed([c] + tail) && Verbs([c] + tail) == Verbs(tail)
    ensures Sprintf([c] + tail, args) == [c] + Sprintf(tail, args)
  {
    assert ([c] + tail)[1..] == tail;
  }

  /** A literal text without `%` in front of a format is copied unchanged. */
  lemma {:induction false} SprintfLiteral(lit: string, rest: string, args: seq<string>)
    requires '%' !in lit
    requires WellFormed(rest) && Verbs(rest) == |args|
    ensures WellFormed(lit + rest) && Verbs(lit + rest) == Verbs(rest)
    ensures Escapes(lit + rest) == Escapes(rest)
    ensures Sprintf(lit + rest, args) == lit + Sprintf(rest, args)
    decreases |lit|
  {
    LiteralPrefix(lit, rest);
    if lit == [] {
      assert lit + rest == rest;
    } else {
      var c, tail := lit[0], lit[1..] + rest;
      assert lit + rest == [c] + tail;
      SprintfLiteral(lit[1..], rest, args);
      SprintfCons(c, tail, args);
      assert [c] + (lit[1..] + Sprintf(rest, args)) == lit + Sprintf(rest, args);
    }
  }

  /** A format without `%` is its own output. */
  lemma PlainSprintf(lit: string)
    requires '%' !in lit
    ensures WellFormed(lit) && Verbs(lit) == 0 && Escapes(lit) == 0
    ensures Sprintf(lit, []) == lit
  {
    SprintfLiteral(lit, [], []);
    assert lit + [] == lit;
  }

  /**
   * A format that starts with a `%s` verb: the output starts with the first
   * argument, unaltered, and the remaining arguments go to the rest.
   */
  lemma SprintfVerb(rest: string, args: seq<string>)
    requires WellFormed(rest) && |args| >= 1 && Verbs(rest) == |args| - 1
    ensures WellFormed("%s" + rest)
    ensures Verbs("%s" + rest) == Verbs(rest) + 1
    ensures Escapes("%s" + rest) == Escapes(rest)
    ensures Sprintf("%s" + rest, args) == args[0] + Sprintf(rest, args[1..])
  {
    var format := "%s" + rest;
    assert format[0] == '%' && format[1] == 's';
    assert format[2..] == rest;
  }

  /** A format that starts with a `%%` escape: the output starts with one `%`. */
  lemma SprintfEscape(rest: string, args: seq<string>)
    requires WellFormed(rest) && Verbs(rest) == |args|
    ensures WellFormed("%%" + rest)
    ensures Verbs("%%" + rest) == Verbs(rest)
    ensures Escapes("%%" + rest) == Escapes(rest) + 1
    ensures Sprintf("%%" + rest, args) == "%" + Sprintf(rest, args)
  {
    var format := "%%" + rest;
    assert format[0] == '%' && format[1] == '%';
    assert format[2..] == rest;
  }

  /**
   * A literal text, a `%s` verb, then the rest of the format: the text, the
   * first argument and the output of the rest, in that order.
   */
  lemma SprintfSlot(lit: string, rest: string, args: seq<string>)
    requires '%' !in lit
    requires WellFormed(rest) && |args| >= 1 && Verbs(rest) == |args| - 1
    ensures WellFormed(lit + ("%s" + rest))
    ensures Verbs(lit + ("%s" + rest)) == Verbs(rest) + 1
    ensures Escapes(lit + ("%s" + rest)) == Escapes(rest)
    ensures Sprintf(lit + ("%s" + rest), args) == lit + (args[0] + Sprintf(rest, args[1..]))
  {
    SprintfVerb(rest, args);
    SprintfLiteral(lit, "%s" + rest, args);
  }

  /**
   * A literal text followed by a `%s` verb: the output is the text followed
   * by the first argument, unaltered, and the remaining arguments go to the
   * rest of the format.
   */
  lemma SprintfStep(lit: string, arg: string, rest: string, args: seq<string>)
    requires '%' !in lit
    requires WellFormed(rest) && Verbs(rest) == |args|
    ensures WellFormed(lit + "%s" + rest)
    ensures Verbs(lit + "%s" + rest) == Verbs(rest) + 1
    ensures Escapes(lit + "%s" + rest) == Escapes(rest)
    ensures Sprintf(lit + "%s" + rest, [arg] + args) == lit + arg + Sprintf(rest, args)
  {
    var all := [arg] + args;
    assert all[0] == arg && all[1..] == args;
    SprintfSlot(lit, rest, all);
    assert lit + "%s" + rest == lit + ("%s" + rest);
  }
}

=== FILE: gostrings.dfy ===
/**
 * The two functions of Go's `strings` package that the file-name deriver
 * uses: `strings.Index` (leftmost occurrence) and `strings.Replace` with a
 * replacement count of one.
 */
module GoStrings {

  /** `sep` occurs in `s` starting at index `i`. */
  predicate OccursAt(s: string, sep: string, i: int) {
    0 <= i && i + |sep| <= |s| && s[i..i + |sep|] == sep
  }

  /** `sep` occurs somewhere in `s`. */
  ghost predicate Contains(s: string, sep: string) {
    exists i :: OccursAt(s, sep, i)
  }

  /** `i` is the leftmost occurrence of `sep` in `s`. */
  predicate FirstAt(s: string, sep: string, i: int) {
    OccursAt(s, sep, i) && forall j :: 0 <= j < i ==> !OccursAt(s, sep, j)
  }

  /** Shifting a string by one character shifts every occurrence by one. */
  lemma OccursAtTail(s: string, sep: string, j: int)
    requires s != [] && 0 <= j
    ensures OccursAt(s[1..], sep, j) <==> OccursAt(s, sep, j + 1)
  {
    if j + |sep| <= |s[1..]| {
      assert s[1..][j..j + |sep|] == s[j + 1..j + 1 + |sep|];
    }
  }

  /**
   * `strings.Index(s, sep)`: the index of the leftmost occurrence of `sep`
   * in `s`, or -1 when there is none. An empty `sep` occurs at index 0.
   */
  function Index(s: string, sep: string): (r: int)
    ensures r == -1 || FirstAt(s, sep, r)
    ensures r == -1 <==> !Contains(s, sep)
    decreases |s|
  {
    if sep <= s then
      assert OccursAt(s, sep, 0);
      0
    else if s == [] then
      -1
    else
      var k := Index(s[1..], sep);
      assert !OccursAt(s, sep, 0);
      if k == -1 then
        assert forall j :: !OccursAt(s, sep, j) by {
          forall j | 1 <= j ensures !OccursAt(s, sep, j) {
            OccursAtTail(s, sep, j - 1);
          }
        }
        -1
      else
        assert FirstAt(s, sep, k + 1) by {
          OccursAtTail(s, sep, k);
          forall j | 1 <= j < k + 1 ensures !OccursAt(s, sep, j) {
            OccursAtTail(s, sep, j - 1);
          }
        }
        k + 1
  }

  /** There is only one leftmost occurrence. */
  lemma FirstAtUnique(s: string, sep: string, i: int, j: int)
    requires FirstAt(s, sep, i) && FirstAt(s, sep, j)
    ensures i == j
  {
    if i < j {
      assert false;
    } else if j < i {
      assert false;
    }
  }

  /**
   * `strings.Replace(s, target, replacement, 1)`: the leftmost occurrence of
   * `target` is replaced by `replacement` (see `ReplaceOnceFirst`); without
   * an occurrence `s` is returned unchanged (see `ReplaceOnceMissing`).
   */
  function ReplaceOnce(s: string, target: string, replacement: string): (r: string)
    ensures |r| == if Index(s, target) == -1 then |s| else |s| - |target| + |replacement|
  {
    var k := Index(s, target);
    if k == -1 then s
    else
      assert 0 <= k && k + |target| <= |s| by { assert OccursAt(s, target, k); }
      var r := s[..k] + replacement + s[k + |target|..];
      assert |r| == |s| - |target| + |replacement|;
      r
  }

  /** Without an occurrence nothing is replaced. */
  lemma ReplaceOnceMissing(s: string, target: string, replacement: string)
    requires !Contains(s, target)
    ensures ReplaceOnce(s, target, replacement) == s
  {
  }

  /** The leftmost occurrence, and only that one, is replaced. */
  lemma ReplaceOnceFirst(s: string, target: string, replacement: string, i: int)
    requires FirstAt(s, target, i)
    ensures ReplaceOnce(s, target, replacement) == s[..i] + replacement + s[i + |target|..]
  {
    FirstAtUnique(s, target, i, Index(s, target));
  }
}

=== FILE: page.dfy ===
/**
 * The proof-of-concept page of cmd/root.go: a fixed HTML skeleton with six
 * `%s` slots, filled by `fmt.Sprintf` with the page title, the body style,
 * the header style, the header message, the framed URL and the iframe
 * style, in that order. No value is escaped or checked.
 */
module Page {
  import GoFmt

  /** The six values the page is built from, in the order the template takes them. */
  datatype PageFields = PageFields(
    title: string,
    bodyStyle: string,
    headerStyle: string,
    headerMessage: string,
    url: string,
    iframeStyle: string)
  {
    /** The argument list handed to `fmt.Sprintf`. */
    function Args(): seq<string> {
      [title, bodyStyle, headerStyle, headerMessage, url, iframeStyle]
    }

    /** The summed length of the six values. */
    function ValuesLength(): nat {
      |title| + |bodyStyle| + |headerStyle| + |headerMessage| + |url| + |iframeStyle|
    }
  }

  // The literal text of the template between its six `%s` verbs.
  const Open: string := "<html>\n<head><title>"
  const AfterTitle: string := "</title></head>\n<body style=\""
  const AfterBodyStyle: string := "\">\n<br />\n<h3 style=\""
  const AfterHeaderStyle: string := "\">"
  const AfterHeaderMessage: string := EndHeader + IframeSrc
  const AfterUrl: string := "\" style=\""
  const Close: string := "\"></iframe>\n</body>\n</html"

  /** The end of the header element. */
  const EndHeader: string := "</h3>\n"
  /** The opening of the iframe element up to its `src` value. */
  const IframeSrc: string := "<iframe src=\""

  /**
   * The page template. It ends in `</html` without the closing `>`, as in
   * the program.
   */
  const Template: string :=
    Open + ("%s" + (AfterTitle + ("%s" + (AfterBodyStyle + ("%s" + (AfterHeaderStyle + ("%s" +
    (AfterHeaderMessage + ("%s" + (AfterUrl + ("%s" + Close)))))))))))

  // The defaults the command-line flags start from.
  const DefaultTitle: string := "Framed Web Application"
  const DefaultBodyStyle: string := "background-color:black"
  const DefaultHeaderStyle: string := "color:white;"
  const DefaultHeaderMessage: string := "The following shows the application embedded in a third party page:"
  /** Passed as a `%s` argument, so both doubled `%` signs reach the page. */
  const DefaultIframeStyle: string := "width:90%%;height:90%%"

  /** The values used when only the URL is given on the command line. */
  function Defaults(url: string): PageFields {
    PageFields(DefaultTitle, DefaultBodyStyle, DefaultHeaderStyle, DefaultHeaderMessage, url, DefaultIframeStyle)
  }

  /** The template fragments hold no `%`, so `fmt.Sprintf` copies them as they are. */
  lemma FragmentsArePlain()
    ensures '%' !in Open && '%' !in AfterTitle && '%' !in AfterBodyStyle
    ensures '%' !in AfterHeaderStyle && '%' !in AfterHeaderMessage
    ensures '%' !in AfterUrl && '%' !in Close
  {
  }

  /** The last three slots of the template, with the texts around them. */
  lemma FillThreeSlots(p3: string, p4: string, p5: string, p6: string, a: seq<string>)
    requires '%' !in p3 && '%' !in p4 && '%' !in p5 && '%' !in p6
    requires |a| == 3
    ensures var format := p3 + ("%s" + (p4 + ("%s" + (p5 + ("%s" + p6)))));
      GoFmt.WellFormed(format) && GoFmt.Verbs(format) == 3 && GoFmt.Escapes(format) == 0 &&
      GoFmt.Sprintf(format, a) == p3 + (a[0] + (p4 + (a[1] + (p5 + (a[2] + p6)))))
  {
    var s5 := p5 + ("%s" + p6);
    var s4 := p4 + ("%s" + s5);
    GoFmt.PlainSprintf(p6);
    assert a[2..][0] == a[2] && a[2..][1..] == [];
    GoFmt.SprintfSlot(p5, p6, a[2..]);
    assert a[1..][0] == a[1] && a[1..][1..] == a[2..];
    GoFmt.SprintfSlot(p4, s5, a[1..]);
    GoFmt.SprintfSlot(p3, s4, a);
  }

  /**
   * A format of seven plain texts around six `%s` verbs: each argument is
   * copied, as it is, between its two neighbouring texts.
   */
  lemma FillSixSlots(p0: string, p1: string, p2: string, p3: string, p4: string, p5: string, p6: string,
                     a: seq<string>)
    requires '%' !in p0 && '%' !in p1 && '%' !in p2 && '%' !in p3
    requires '%' !in p4 && '%' !in p5 && '%' !in p6
    requires |a| == 6
    ensures var format := p0 + ("%s" + (p1 + ("%s" + (p2 + ("%s" + (p3 + ("%s" +
      (p4 + ("%s" + (p5 + ("%s" + p6)))))))))));
      GoFmt.WellFormed(format) && GoFmt.Verbs(format) == 6 && GoFmt.Escapes(format) == 0 &&
      GoFmt.Sprintf(format, a) ==
        p0 + (a[0] + (p1 + (a[1] + (p2 + (a[2] + (p3 + (a[3] + (p4 + (a[4] + (p5 + (a[5] + p6)))))))))))
  {
    var s3 := p3 + ("%s" + (p4 + ("%s" + (p5 + ("%s" + p6)))));
    var s2 := p2 + ("%s" + s3);
    var s1 := p1 + ("%s" + s2);
    FillThreeSlots(p3, p4, p5, p6, a[3..]);
    assert a[3..][0] == a[3] && a[3..][1] == a[4] && a[3..][2] == a[5];
    assert a[2..][0] == a[2] && a[2..][1..] == a[3..];
    GoFmt.SprintfSlot(p2, s3, a[2..]);
    assert a[1..][0] == a[1] && a[1..][1..] == a[2..];
    GoFmt.SprintfSlot(p1, s2, a[1..]);
    GoFmt.SprintfSlot(p0, s1, a);
  }

  /**
   * The page `Run` prints: `fmt.Sprintf(template, title, bodyStyle,
   * headerStyle, headerMessage, url, iframeStyle)`. Each value lands, as
   * given, in its own slot of the fixed skeleton, in that order.
   */
  function Render(f: PageFields): (page: string)
    ensures page ==
      Open + (f.title + (AfterTitle + (f.bodyStyle + (AfterBodyStyle + (f.headerStyle +
      (AfterHeaderStyle + (f.headerMessage + (AfterHeaderMessage + (f.url + (AfterUrl +
      (f.iframeStyle + Close)))))))))))
  {
    FragmentsArePlain();
    FillSixSlots(Open, AfterTitle, AfterBodyStyle, AfterHeaderStyle, AfterHeaderMessage, AfterUrl, Close,
                 f.Args());
    GoFmt.Sprintf(Template, f.Args())
  }

  /** The summed length of the fixed text around the six slots. */
  function SkeletonLength(): nat {
    |Open| + |AfterTitle| + |AfterBodyStyle| + |AfterHeaderStyle| + |AfterHeaderMessage| +
    |AfterUrl| + |Close|
  }

  /**
   * The page is exactly as long as the fixed text plus the six values, and
   * that is the template's length without its six two-character verbs. This
   * lemma gives only the length; `Render`'s ensures gives the content.
   */
  lemma RenderLength(f: PageFields)
    ensures |Render(f)| == SkeletonLength() + f.ValuesLength()
    ensures |Render(f)| == |Template| - 2 * 6 + GoFmt.TotalLength(f.Args())
  {
    var a := f.Args();
    assert a[5..][1..] == [];
    assert GoFmt.TotalLength(a[5..]) == |f.iframeStyle|;
    assert a[4..][1..] == a[5..];
    assert GoFmt.TotalLength(a[4..]) == |f.url| + GoFmt.TotalLength(a[5..]);
    assert a[3..][1..] == a[4..];
    assert GoFmt.TotalLength(a[3..]) == |f.headerMessage| + GoFmt.TotalLength(a[4..]);
    assert a[2..][1..] == a[3..];
    assert GoFmt.TotalLength(a[2..]) == |f.headerStyle| + GoFmt.TotalLength(a[3..]);
    assert a[1..][1..] == a[2..];
    assert GoFmt.TotalLength(a[1..]) == |f.bodyStyle| + GoFmt.TotalLength(a[2..]);
    assert GoFmt.TotalLength(a) == f.ValuesLength();
  }

  /**
   * Every page starts with `<html>` and the opening of the title element and
   * ends with `</iframe>`, `</body>` and an unclosed `</html`: its last
   * character is `l`, not `>`.
   */
  lemma RenderFrame(f: PageFields)
    ensures Open <= Render(f)
    ensures |Render(f)| >= |Open| + |Close| && Render(f)[|Render(f)| - |Close|..] == Close
    ensures Render(f)[|Render(f)| - 1] == 'l'
  {
    RenderStart(f);
    RenderEnd(f);
    LastOfClose();
  }

  /** The page starts with the opening fragment. */
  lemma RenderStart(f: PageFields)
    ensures Open <= Render(f)
  {
    var rest := f.title + (AfterTitle + (f.bodyStyle + (AfterBodyStyle + (f.headerStyle +
      (AfterHeaderStyle + (f.headerMessage + (AfterHeaderMessage + (f.url + (AfterUrl +
      (f.iframeStyle + Close))))))))));
    assert Render(f) == Open + rest;
  }

  /** The page ends with the closing fragment, after everything else. */
  lemma RenderEnd(f: PageFields)
    ensures |Render(f)| >= |Open| + |Close| && Render(f)[|Render(f)| - |Close|..] == Close
  {
    var before, page := BeforeSrc(f), Render(f);
    UrlSplit(f);
    assert page == before + (IframeSrc + (f.url + (AfterUrl + (f.iframeStyle + Close))));
    BeforeSrcHoldsOpen(f);
    NestedSuffix(BeforeSrc(f), IframeSrc, f.url, AfterUrl, f.iframeStyle, Close);
  }

  /** The text in front of the iframe is at least as long as the opening fragment. */
  lemma BeforeSrcHoldsOpen(f: PageFields)
    ensures |BeforeSrc(f)| >= |Open|
  {
  }

  /** The closing fragment ends in `l`: the `</html` tag is left open. */
  lemma LastOfClose()
    ensures Close[|Close| - 1] == 'l'
  {
  }

  /** The last of six nested texts ends their concatenation. */
  lemma NestedSuffix(x0: string, x1: string, x2: string, x3: string, x4: string, c: string)
    ensures var s := x0 + (x1 + (x2 + (x3 + (x4 + c))));
      |s| >= |x0| + |c| && s[|s| - |c|..] == c
  {
    var t4 := x4 + c;
    var t3 := x3 + t4;
    var t2 := x2 + t3;
    var t1 := x1 + t2;
    assert EndsWith(c, c) by { assert c[0..] == c; }
    assert EndsWith(t4, c) by { KeepsSuffix(x4, c, c); }
    assert EndsWith(t3, c) by { KeepsSuffix(x3, t4, c); }
    assert EndsWith(t2, c) by { KeepsSuffix(x2, t3, c); }
    assert EndsWith(t1, c) by { KeepsSuffix(x1, t2, c); }
    assert EndsWith(x0 + t1, c) by { KeepsSuffix(x0, t1, c); }
  }

  /** `s` ends with `c`. */
  predicate EndsWith(s: string, c: string) {
    |c| <= |s| && s[|s| - |c|..] == c
  }

  /** A suffix of `b` is a suffix of `a + b`. */
  lemma KeepsSuffix(a: string, b: string, c: string)
    requires EndsWith(b, c)
    ensures EndsWith(a + b, c)
  {
    assert (a + b)[|a + b| - |c|..] == b[|b| - |c|..];
  }

  /** Regrouping a right-nested concatenation of nine texts in front of a tail. */
  lemma Regroup(x0: string, x1: string, x2: string, x3: string, x4: string, x5: string, x6: string,
                x7: string, x8: string, tail: string)
    ensures x0 + (x1 + (x2 + (x3 + (x4 + (x5 + (x6 + (x7 + (x8 + tail)))))))) ==
      (x0 + (x1 + (x2 + (x3 + (x4 + (x5 + (x6 + (x7 + x8)))))))) + tail
  {
    var b7 := x7 + x8;
    var b6 := x6 + b7;
    var b5 := x5 + b6;
    var b4 := x4 + b5;
    var b3 := x3 + b4;
    var b2 := x2 + b3;
    var b1 := x1 + b2;
    assert x7 + (x8 + tail) == b7 + tail;
    assert x6 + (b7 + tail) == b6 + tail;
    assert x5 + (b6 + tail) == b5 + tail;
    assert x4 + (b5 + tail) == b4 + tail;
    assert x3 + (b4 + tail) == b3 + tail;
    assert x2 + (b3 + tail) == b2 + tail;
    assert x1 + (b2 + tail) == b1 + tail;
  }

  /**
   * The URL appears verbatim, unescaped, right after `<iframe src="` and
   * right before the fixed `" style="`.
   */
  lemma UrlVerbatim(f: PageFields)
    ensures exists before :: (Render(f) ==
      before + (IframeSrc + (f.url + (AfterUrl + (f.iframeStyle + Close)))))
  {
    UrlSplit(f);
  }

  /**
   * Where the page's URL sits: the text in front of `<iframe src="` and the
   * text after it, through the end of the page.
   */
  lemma UrlSplit(f: PageFields)
    ensures Render(f) == BeforeSrc(f) + (IframeSrc + (f.url + (AfterUrl + (f.iframeStyle + Close))))
  {
    var tail := IframeSrc + (f.url + (AfterUrl + (f.iframeStyle + Close)));
    assert AfterHeaderMessage + (f.url + (AfterUrl + (f.iframeStyle + Close))) == EndHeader + tail;
    Regroup(Open, f.title, AfterTitle, f.bodyStyle, AfterBodyStyle, f.headerStyle, AfterHeaderStyle,
            f.headerMessage, EndHeader, tail);
  }

  /** Everything in front of `<iframe src="`; it does not depend on the URL. */
  function BeforeSrc(f: PageFields): string {
    Open + (f.title + (AfterTitle + (f.bodyStyle + (AfterBodyStyle + (f.headerStyle +
      (AfterHeaderStyle + (f.headerMessage + EndHeader)))))))
  }

  /** Around the same texts, equal results mean equal middles. */
  lemma MiddleDetermined(p: string, q: string, x: string, y: string, t: string)
    ensures p + (q + (x + t)) == p + (q + (y + t)) <==> x == y
  {
    if p + (q + (x + t)) == p + (q + (y + t)) {
      var whole := p + (q + (x + t));
      assert |x| == |y|;
      assert whole[|p| + |q|..|p| + |q| + |x|] == x;
    }
  }

  /**
   * With the other five values fixed, the page determines the URL: two
   * different URLs never give the same page.
   */
  lemma UrlDeterminesPage(f: PageFields, g: PageFields)
    requires f.title == g.title && f.bodyStyle == g.bodyStyle && f.headerStyle == g.headerStyle
    requires f.headerMessage == g.headerMessage && f.iframeStyle == g.iframeStyle
    ensures Render(f) == Render(g) <==> f.url == g.url
  {
    UrlSplit(f);
    UrlSplit(g);
    MiddleDetermined(BeforeSrc(f), IframeSrc, f.url, g.url, AfterUrl + (f.iframeStyle + Close));
  }

  /**
   * The raw text of a double-quoted attribute value once the opening quote
   * has been consumed: everything up to the next `"`, which ends it.
   * Character references are not decoded.
   */
  function AttributeValue(s: string): (v: string)
    ensures v <= s && '"' !in v
    ensures |v| < |s| ==> s[|v|] == '"'
  {
    if s == [] || s[0] == '"' then [] else [s[0]] + AttributeValue(s[1..])
  }

  /** A quote-free text followed by a quote is read back as itself. */
  lemma {:induction false} AttributeValueStops(u: string, w: string)
    requires '"' !in u
    ensures AttributeValue(u + w) == u <==> (w == [] || w[0] == '"')
    decreases |u|
  {
    if u != [] {
      assert (u + w)[1..] == u[1..] + w;
      AttributeValueStops(u[1..], w);
    } else {
      assert u + w == w;
    }
  }

  /**
   * The raw text from the fixed `<iframe src="` up to the next `"`: the raw
   * text of the iframe's `src` attribute, provided the five values in front
   * of it leave the iframe tag intact.
   */
  function SrcValue(f: PageFields): (v: string)
    ensures v <= f.url + (AfterUrl + (f.iframeStyle + Close)) && '"' !in v
  {
    AttributeValue(f.url + (AfterUrl + (f.iframeStyle + Close)))
  }

  /**
   * The raw `src` text is exactly the URL when the URL has no `"`; a `"` in
   * the URL ends the attribute there, and the rest of the URL is read as
   * more markup. Nothing is escaped.
   */
  lemma SrcIsUrl(f: PageFields)
    ensures SrcValue(f) == f.url <==> '"' !in f.url
  {
    var rest := AfterUrl + (f.iframeStyle + Close);
    assert rest[0] == '"';
    if '"' !in f.url {
      AttributeValueStops(f.url, rest);
    }
  }

  /**
   * A URL of the form `u"v`, with `u` free of quotes, leaves only `u` in the
   * `src` attribute.
   */
  lemma QuoteEndsSrc(f: PageFields, u: string, v: string)
    requires '"' !in u && f.url == u + ("\"" + v)
    ensures SrcValue(f) == u
  {
    QuoteSplit(u, v, AfterUrl + (f.iframeStyle + Close));
  }

  /** The raw attribute text of `u"v` followed by anything is `u`. */
  lemma QuoteSplit(u: string, v: string, tail: string)
    requires '"' !in u
    ensures AttributeValue((u + ("\"" + v)) + tail) == u
  {
    var rest := "\"" + (v + tail);
    assert (u + ("\"" + v)) + tail == u + rest;
    AttributeValueStops(u, rest);
  }

  /** The URL `http://a.com/"onload="alert(1)` puts `http://a.com/` in `src`. */
  lemma QuoteNotEscaped(f: PageFields)
    requires f.url == "http://a.com/\"onload=\"alert(1)"
    ensures SrcValue(f) == "http://a.com/"
  {
    InjectedUrlParts();
    QuoteEndsSrc(f, "http://a.com/", "onload=\"alert(1)");
  }

  /** The example URL, split at its first quote. */
  lemma InjectedUrlParts()
    ensures "http://a.com/\"onload=\"alert(1)" == "http://a.com/" + ("\"" + "onload=\"alert(1)")
    ensures '"' !in "http://a.com/"
  {
  }

  /**
   * The page built from the defaults, with each default value in its slot;
   * the iframe style keeps both doubled `%` signs.
   */
  lemma DefaultPage(url: string)
    ensures Render(Defaults(url)) ==
      Open + ("Framed Web Application" + (AfterTitle + ("background-color:black" + (AfterBodyStyle +
      ("color:white;" + (AfterHeaderStyle +
      ("The following shows the application embedded in a third party page:" + (AfterHeaderMessage +
      (url + (AfterUrl + ("width:90%%;height:90%%" + Close)))))))))))
  {
  }

  /**
   * Had `width:90%%;height:90%%` been part of the format instead of an
   * argument, each `%%` would have become a single `%`.
   */
  lemma DoubledPercentInFormat()
    ensures GoFmt.WellFormed(DefaultIframeStyle) && GoFmt.Verbs(DefaultIframeStyle) == 0
    ensures GoFmt.Escapes(DefaultIframeStyle) == 2
    ensures GoFmt.Sprintf(DefaultIframeStyle, []) == "width:90%;height:90%"
  {
    var width, height := "width:90", ";height:90";
    IframeStyleParts();
    GoFmt.PlainSprintf([]);
    GoFmt.SprintfEscape([], []);
    GoFmt.SprintfLiteral(height, "%%", []);
    GoFmt.SprintfEscape(height + "%%", []);
    GoFmt.SprintfLiteral(width, "%%" + (height + "%%"), []);
    assert "%%" + [] == "%%" && "%" + [] == "%";
  }

  /** The default iframe style, split at its two doubled `%` signs. */
  lemma IframeStyleParts()
    ensures DefaultIframeStyle == "width:90" + ("%%" + (";height:90" + "%%"))
    ensures "width:90%;height:90%" == "width:90" + ("%" + (";height:90" + "%"))
    ensures '%' !in "width:90" && '%' !in ";height:90"
  {
  }
}
